=== FILE: README.md ===
# CodeBot agent loop in Dafny

CodeBot is an autonomous task runner. A language model first produces a plan. Each plan step then runs as a bounded conversation with the model. In every round the model answers with a JSON reply. The reply is either a tool call (`{"action", "input"}`) or a final answer (`{"final"}`). The agent checks the reply and applies two safety rules. It runs the tool and reports the result back. It gives up the step on any malformed reply, on a policy violation, or after five rounds.

This project models that core as pure functions over immutable records:

- `Json`: the values `json.loads` returns, Python truthiness and hashability.
- `Text`: Python's `str.strip()`, with the full `str.isspace()` character set, the substring test `w in s`, and the universal-newline translation of text-mode reads.
- `Response`: `validate_response` and the two reply shapes.
- `Tools`: `ShellTool`, `ReadFileTool` and `WriteFileTool` over an abstract file system (`map<string, string>`).
- `Registry`: the `TOOLS` table and dispatch.
- `Policy`: the agent's pre-checks, read-before-write for `write_file` and the install denylist for `shell`.
- `StepExecutor`: `execute_step`. `Iterate` is one pass of its `while True` body. `ExecuteStep` is the loop, with `decreases 5 - retry_count`. `RunPasses` is the same loop written as a recursive definition, and `ExecuteStep`'s contract refers to it.
- `StepProperties`: what one pass does with each kind of reply.
- `Orchestrator`: the step loop of `run_agent`.

The model's collaborators are parameters, bundled in `StepExecutor.Env`:

- `ask` is the model. It is a function of the conversation, and `None` stands for a request that raised.
- `decode` is `json.loads`. `None` stands for a decode error.
- `exec` is `subprocess.run` with `shell=True` and `text=True`. It returns both streams, the code and the file system it leaves. The streams it returns are already decoded and already newline-translated, as `text=True` does, so the model does not translate them again.
- `listDir` stands for the `list_dir` tool.

Every step keeps a log of the tool runs it made. The properties "the tool never ran" and "`files_read` follows the reads" are stated against that log.

Several behaviours of the code are easy to misread. The model follows the code:

- `rm `, `shutdown`, `reboot`, `mkfs` and `dd ` are refused inside `ShellTool.run`. That refusal is an ordinary failed result, which the step retries; it does not end the step (`StepProperties.BlockedShellIsRetried`). Only `pip`, `venv`, `apt`, `yum`, `brew` and `install` end the step.
- The `write_file` pre-check only needs the input to be an object with a `"path"` key. A missing `"content"` fails later, inside the tool, and is retried (`StepProperties.WriteWithoutContentIsRetried`).
- `if not parsed` also ends the step for falsy values such as `{}`, `[]`, `""`, `0`, `false` and `null`.
- A `"path"` that is a JSON list or object makes `path not in files_read` raise `TypeError` outside the `try`. The model reports this as `Raised(UnhashablePath)`, an exception that escapes the step.
- `WriteFileTool` opens the file for writing before `f.write(content)` runs. A `"content"` that is not a string therefore fails after the file has already been emptied. The model leaves that file empty.

## Model

| member | source | states |
|---|---|---|
| `Json.Truthy` | app/agent.py:189 | Python's `not parsed`: a decoded value is false exactly when it is `null`, `false`, `0`, `""`, `[]` or `{}` |
| `Text.Strip` | app/tools.py:35-36 | the result is the input with its leading and trailing Python whitespace removed, and nothing else removed |
| `Text.TrimUnique` | app/tools.py:35-36 | stripping is well defined: any two strings that each are the trim of the same input are equal |
| `Text.StripIdempotent` | app/tools.py:57 | stripping an already stripped string changes nothing |
| `Text.Contains` | app/agent.py:240 | Python's `w in s`: true exactly when `w` occurs at some index of `s` |
| `Response.ValidateResponse` | app/agent.py:73-93 | accepts exactly `{final: string}` or `{action: string, input: string}` with no other key; the accepted reply carries the object's strings; every rejection has a non-empty message; a non-object is rejected as such |
| `Response.AcceptExactly` | app/agent.py:73-93 | a value is accepted as a reply if and only if it is that reply's object form, in both directions |
| `Response.FinalCheckedFirst` | app/agent.py:77-79 | `{final, action, input}` is rejected for extra keys, because `"final"` is checked first |
| `Tools.RunShell` | app/tools.py:17-38 | a command containing a blocked fragment gets `{"", "Command blocked for safety.", 1}` and the file system is unchanged; any other command runs, and its result has both streams stripped and the process's return code |
| `Text.TranslateNewlines` | app/tools.py:53-54 | text-mode reading turns every `\r\n` and lone `\r` into `\n`: the result holds no carriage return, and text without one comes back unchanged |
| `Text.TranslatePieces` | app/tools.py:53-54 | the translation maps `\r\n` to `\n`, a lone `\r` to `\n`, and any other character to itself |
| `Text.TranslateAppend` | app/tools.py:53-54 | the translation works piece by piece: translating `a + b` gives the translation of `a` followed by that of `b` whenever `a` does not end in `\r` |
| `Text.TranslateLoneCr` | app/tools.py:53-54 | a `\r` not followed by `\n` turns into one `\n`, and the rest translates on its own |
| `Text.TranslateAppendCr` | app/tools.py:53-54 | the same holds when `a` ends in a lone `\r` and `b` does not start with `\n`; every input splits after each `\r\n`, lone `\r` or other character into pieces where one of the two append lemmas applies, so with `TranslatePieces` they fix the result of every input |
| `Tools.RunReadFile` | app/tools.py:45-60 | a missing path gives `{"", "File not found.", 1}`; an existing one gives its content, read with universal newlines and then stripped, with empty stderr and code 0 |
| `Tools.WriteThenRead` | app/tools.py:53-77 | a file written with string `path` and `content` reads back with code 0, and as the stripped content when the content holds no carriage return |
| `Tools.RunWriteFile` | app/tools.py:64-77 | with `Tools.Field` as `data[key]`: code 0 exactly when the payload has string `path` and `content`, and then the file holds exactly `content` with result `File written`; otherwise code 1, empty stdout and non-empty stderr; no file other than `path` changes; nothing is written when the input does not decode or lacks a key |
| `Registry.LookupTool` | app/agent.py:11-16 | finds a tool exactly when the action is one of the four registered names, and the found tool has that name |
| `Registry.LookupNameOf` | app/agent.py:11-16 | every registered tool is found under its own name |
| `Registry.RunTool` | app/agent.py:244 | `read_file` and `list_dir` change no file; `read_file` returns code 0 exactly when the path exists |
| `Policy.Precheck` | app/agent.py:226-242 | with `Tools.Field` as `data["path"]`: the tool may run exactly when a write targets a path already in `files_read` and a shell command holds none of `pip/venv/apt/yum/brew/install`; a write input without an object `"path"` is refused as a bad payload; a list or object path raises |
| `StepExecutor.ToolsReportSuccess` | app/agent.py:257 | the agent's rule (failure when the code is non-zero or stderr is non-empty) counts a read as a success exactly when the file exists, never a blocked command, a write exactly when it returns code 0, and a shell command exactly when it is not blocked, exits with 0 and prints only whitespace on stderr |
| `StepExecutor.ApplyReads` | app/agent.py:249-252 | `files_read` never loses a key, and every key it gains is the input of a successful `read_file` run |
| `StepExecutor.PermittedAt` | app/agent.py:226-242 | in a permitted log, each run passed the pre-checks against the `files_read` produced by the runs before it |
| `StepExecutor.ReadReply` | app/agent.py:187-196 | the reply is malformed exactly when it does not decode or decodes to a false value; an accepted reply is what the text decoded to; a rejection carries a non-empty message |
| `StepExecutor.Execute` | app/agent.py:243-294 | running a tool appends exactly one run for that tool and input, carrying the tool's own result and file system, sets the success flag to `returncode == 0 and not stderr`, records a successful read in `files_read`, and appends the raw reply and the report of that result |
| `StepExecutor.Dispatch` | app/agent.py:218-294 | the pass stops exactly when the action is unknown or a pre-check refuses it, and then nothing runs; otherwise the requested tool runs once on the requested input, its result is logged and its file system kept, the success flag is `returncode == 0 and not stderr`, `files_read` records successful reads, and the user message reports that result |
| `StepExecutor.Iterate` | app/agent.py:178-294 | each pass makes one model query; a continuing pass adds one retry and exactly two messages, the raw reply then a user message, and either refuses a final answer or runs one permitted tool; a stopping pass runs no tool and changes nothing but the query count; a final answer is returned only when the last run succeeded |
| `StepExecutor.ApplyReadsSnoc` | app/agent.py:249-252 | the reads of a longer log are those of the shorter log followed by the new run's read |
| `StepExecutor.AllPermittedSnoc` | app/agent.py:226-244 | a log stays permitted when a run allowed against the current `files_read` is appended |
| `StepExecutor.RefusalKeepsReachable` | app/agent.py:201-210 | a refused final answer keeps the loop invariant |
| `StepExecutor.RunKeepsReachable` | app/agent.py:243-294 | a permitted tool run keeps the loop invariant |
| `StepExecutor.IterateKeepsReachable` | app/agent.py:178-294 | the loop invariant holds across a continuing pass: the message count is `2 + 2*retry_count`, the success flag matches the last run, `files_read` follows the reads, and every run was permitted when it ran |
| `StepExecutor.ExecuteStep` | app/agent.py:157-294 | at most five model queries; `len(messages) == 2 + 2*retry_count` with the seed messages first; the retry limit is the outcome exactly when five retries were used; a `Done` step's last run succeeded; `files_read` only grows and follows the reads; every write targeted an already-read path and no shell run held a forbidden word; the step started from the seed conversation, the incoming `files_read` and the given file system, and its outcome and final state are exactly those of running passes (`Iterate`) from that start until one stops or five retries are used |
| `StepProperties.ReadsAs` | app/agent.py:187-196 | a reply that decodes to the object form of a well-formed reply is read as exactly that reply, the converse of `StepExecutor.ReadReply` |
| `StepProperties.CallDispatches` | app/agent.py:218-219 | a well-formed tool call goes on to the lookup and pre-checks with the query counted |
| `StepProperties.TransportErrorRaises` | app/agent.py:184 | a model request that raises is not caught: the pass ends with the `TransportError` exception escaping, with only the query counted |
| `StepProperties.MalformedReplyAborts` | app/agent.py:187-191 | an undecodable or falsy reply stops the step with `None`, with no tool run and `files_read` unchanged |
| `StepProperties.InvalidReplyAborts` | app/agent.py:193-196 | a truthy reply of neither shape stops the step with the validator's non-empty message |
| `StepProperties.FinalGatedBySuccess` | app/agent.py:201-213 | a final answer is returned when the last run succeeded, and otherwise is refused with one retry, two messages and no tool run |
| `StepProperties.UnknownToolAborts` | app/agent.py:221-224 | an unregistered action stops the step without running anything |
| `StepProperties.ForbiddenShellAborts` | app/agent.py:238-242 | a shell command holding a forbidden word stops the step without running anything |
| `StepProperties.BadWritePayloadAborts` | app/agent.py:227-233 | a write input that is not an object with `"path"` stops the step without running anything |
| `StepProperties.UnreadWriteAborts` | app/agent.py:235-237 | a write to a path not in `files_read` stops the step without running anything, or raises for a list or object path |
| `StepProperties.BlockedShellIsRetried` | app/tools.py:18-25 | a destructive command without a forbidden word reaches the shell tool, gets the blocked result, and is retried with the file system unchanged |
| `StepProperties.ShellCommandRuns` | app/agent.py:238-244 | a shell command with no forbidden word and no blocked fragment runs: the stripped process result is logged, the command's file system is kept, and the run counts as a success exactly when the code is 0 and the stripped stderr is empty |
| `StepProperties.ReadRecordsContent` | app/agent.py:250-252 | reading an existing file succeeds and records its content, newline-translated and stripped, under the path as written |
| `StepProperties.ReadMissingIsRetried` | app/agent.py:250-275 | reading a missing file is a failed run that is retried, with `files_read` unchanged |
| `StepProperties.WriteAfterRead` | app/agent.py:226-244 | writing a file already in `files_read` replaces exactly that file's content and counts as a success |
| `StepProperties.WriteWithoutContentIsRetried` | app/agent.py:229-230 | a write payload without `"content"` passes the pre-check, fails inside the tool with `'content'`, writes nothing, and is retried |
| `StepProperties.ReadThenWrite` | app/agent.py:235-252 | a successful read in one pass lets the next pass write that path |
| `Orchestrator.RunStep` | app/agent.py:140 | the step's conversation starts from the previous result, and the step starts on the current `files_read` and file system and runs its passes from there; every tool it ran was permitted against `files_read` as it stood; `files_read` grows only by the step's successful reads; a returned result followed a successful run |
| `Orchestrator.StartedInTurnStep` | app/agent.py:138-147 | appending a step that started from the previous result, `files_read` and file system keeps every step so started |
| `Orchestrator.RanStep` | app/agent.py:138-147 | appending a step whose outcome and state are what its passes compute keeps every recorded step so |
| `Orchestrator.Advance` | app/agent.py:138-147 | a step run as `execute_step` runs it, started from where the previous steps left off, keeps all the facts the loop maintains: plan order, the previous result as seed, the policy, the start state and the passes actually run |
| `Orchestrator.RunNext` | app/agent.py:139-147 | one turn of the loop runs the next plan step from where the previous one left off, appends it, and appends its text to the results exactly when it is `Done`; every recorded step's outcome and final state are what running passes from its start gives |
| `Orchestrator.ObeyedStep` | app/agent.py:138-147 | appending a step that kept the rules from where the previous step left `files_read` keeps every step obeying them |
| `Orchestrator.ThreadedStep` | app/agent.py:138-147 | running the next step keeps the steps in line with the plan, and a result is appended only for a `Done` step |
| `Orchestrator.RunAgent` | app/agent.py:125-147 | an empty plan runs nothing; steps run in plan order, each seeded with the previous result; the loop stops at the first step that returns `None` or raises; after k finished steps the results are those k final texts in order and `last_stdout` is the last one; `files_read` never loses a key from one step to a later one; in every step each tool run was permitted against the reads of the whole task so far, so every write targets a path a successful earlier read recorded; step j starts on the file system and `files_read` step j-1 left, and the task ends on the file system the last step left; every recorded step's outcome and final state are what `execute_step`'s passes compute from its start, so the verdict and results come from the model's actual replies |

## Left out

- Model transport (app/llm.py): replaced by the `ask` oracle, a function of the conversation. Sampling that answers the same conversation differently is not modelled. A transport error is `Raised(TransportError)` (`StepProperties.TransportErrorRaises`).
- Planning (app/planner.py): the plan is an input sequence. `create_plan` takes one argument but is called with two (app/agent.py:123). `discover_project_structure` is an `os.walk` traversal and is also left out.
- JSON text parsing: `json.loads` is the `decode` oracle. The non-standard `NaN` and `Infinity` number literals are not distinguished from other numbers.
- Prompt wording and every `print`: messages keep only the values interpolated into them.
- `ListDirTool` is imported but not defined in app/tools.py, so the module as written cannot even be imported. The model registers `list_dir` anyway and takes its result from the `listDir` oracle.
- `Tools.RunShell`: the `exec` oracle always returns a process result. `subprocess.run(..., text=True)` can also raise: `UnicodeDecodeError` when the command prints bytes that do not decode, and `ValueError` when the command holds a NUL. Nothing catches either, so the step and the task end with that exception. The model has no such outcome for the shell.
- Real processes and files: the shell is the `exec` oracle. Files are a map from path strings to contents, with no directories, no path normalisation and no permissions. `ReadFileTool` raising on a directory or on undecodable bytes is not modelled.
- `Tools.RunWriteFile`: a non-string `"path"` is modelled as a failure that writes nothing. Python would treat an integer as a file descriptor. `open` failures such as a missing parent directory are not modelled. Through the agent, only string paths already in `files_read` ever reach the tool.
- `Tools.RunWriteFile`: the exception texts for a decode error, a non-object payload and wrong field types are fixed stand-in strings. Only their non-emptiness is meant; the two key errors carry Python's exact text.
- Task-level printing of the final result: `Orchestrator.RunAgent` returns it in `Completed(finalResult)` instead.

=== FILE: json.dfy ===
/** The values `json.loads` produces, and how Python judges their truth. */
module Json {

  /** A decoded JSON document. Numbers are kept as reals, so the integer
      `0` and the float `0.0` are the same value here, as they are for
      Python's truth test. An object is a map: with duplicate keys the
      decoder keeps the last one, as `json.loads` does. */
  datatype JsonValue =
    | JNull
    | JBool(b: bool)
    | JNum(n: real)
    | JStr(s: string)
    | JArr(items: seq<JsonValue>)
    | JObj(fields: map<string, JsonValue>)

  /** Python's `bool(v)`: `None`, `False`, zero, `""`, `[]` and `{}` are
      false, everything else is true. */
  function Truthy(v: JsonValue): (b: bool)
    ensures !b <==> v in {JNull, JBool(false), JNum(0.0), JStr([]), JArr([]), JObj(map[])}
  {
    match v
    case JNull => false
    case JBool(b) => b
    case JNum(n) => n != 0.0
    case JStr(s) => s != []
    case JArr(items) => items != []
    case JObj(fields) => fields != map[]
  }

  /** Python's `hash(v)` succeeds: lists and dicts are unhashable, so
      `v in some_dict` raises `TypeError` for them. */
  predicate Hashable(v: JsonValue) {
    !v.JArr? && !v.JObj?
  }

}

=== FILE: orchestrator.dfy ===
/** The step loop of `run_agent` (app/agent.py): runs the plan's steps in
    order over one shared task state, feeds each result into the next
    step's prompt, and stops at the first step that does not return a
    result. Planning itself happens outside: the plan is an input. */
module Orchestrator {
  import opened Wrappers
  import opened Json
  import opened Tools
  import opened StepExecutor

  datatype TaskVerdict =
    | NoPlan
    | Completed(finalResult: string)
    | StepFailed(index: nat)
    | Crashed(index: nat, exception: Exception)

  /** The verdict, the task state and file system at the end, and the
      result of every step that ran. */
  datatype AgentRun = AgentRun(verdict: TaskVerdict, state: TaskState, fs: FileSystem, steps: seq<StepResult>)

  /** The step's conversation started from the given previous output and
      step description. */
  ghost predicate SeededWith(r: StepResult, lastStdout: string, step: string) {
    && |r.state.messages| >= 2
    && r.state.messages[0] == Message(System, SystemPrompt)
    && r.state.messages[1] == Message(User, StepPrompt(lastStdout, step))
  }

  /** `files_read` lost no key from the end of step `a` to the end of step `b`. */
  ghost predicate KeptReads(a: StepResult, b: StepResult) {
    a.state.filesRead.Keys <= b.state.filesRead.Keys
  }

  /** The previous step's result, or `""` before the first step. */
  function PreviousOutput(results: seq<string>, j: nat): string
    requires j <= |results|
  {
    if j == 0 then "" else results[j - 1]
  }

  /** The `files_read` step `j` started from: empty for the first step,
      otherwise what the step before it left. */
  function StartReads(steps: seq<StepResult>, j: nat): map<string, string>
    requires j <= |steps|
  {
    if j == 0 then map[] else steps[j - 1].state.filesRead
  }

  /** The file system step `j` started on: the task's for the first step,
      otherwise what the step before it left. */
  function StartFs(fs: FileSystem, steps: seq<StepResult>, j: nat): FileSystem
    requires j <= |steps|
  {
    if j == 0 then fs else steps[j - 1].state.fs
  }

  /** Step `j` started from plan entry `j`, the previous result, and the
      reads and file system the earlier steps left. */
  ghost predicate StartedInTurn(plan: seq<string>, fs: FileSystem, steps: seq<StepResult>, results: seq<string>, j: nat) {
    && j < |steps| && j < |plan| && j <= |results|
    && steps[j].origin == Start(plan[j], PreviousOutput(results, j), StartReads(steps, j), StartFs(fs, steps, j))
  }

  /** Appending the next step, started where the last one left off, keeps
      every step in turn; a result it returns does not disturb them. */
  lemma {:induction false} StartedInTurnStep(plan: seq<string>, fs: FileSystem, steps: seq<StepResult>, results: seq<string>, result: StepResult)
    requires |steps| == |results| < |plan|
    requires forall j :: 0 <= j < |steps| ==> StartedInTurn(plan, fs, steps, results, j)
    requires result.origin == Start(plan[|steps|], PreviousOutput(results, |steps|), StartReads(steps, |steps|), StartFs(fs, steps, |steps|))
    ensures forall j :: 0 <= j < |steps| + 1 ==> StartedInTurn(plan, fs, steps + [result], results, j)
    ensures result.outcome.Done? ==>
      forall j :: 0 <= j < |steps| + 1 ==> StartedInTurn(plan, fs, steps + [result], results + [result.outcome.final], j)
  {
    var steps' := steps + [result];
    forall j | 0 <= j < |steps'| ensures StartedInTurn(plan, fs, steps', results, j) {
      assert StartReads(steps', j) == StartReads(steps, j);
      assert StartFs(fs, steps', j) == StartFs(fs, steps, j);
      if j < |steps| {
        assert steps'[j] == steps[j];
        assert StartedInTurn(plan, fs, steps, results, j);
      }
    }
    if result.outcome.Done? {
      var results' := results + [result.outcome.final];
      forall j | 0 <= j < |steps'| ensures StartedInTurn(plan, fs, steps', results', j) {
        assert PreviousOutput(results', j) == PreviousOutput(results, j);
        assert StartedInTurn(plan, fs, steps', results, j);
      }
    }
  }

  /** Step `j` kept the agent's rules against the reads the task had made
      before it: every tool it ran passed the pre-checks (so each write
      targeted a path some earlier successful read recorded), its
      `files_read` is its start plus its own successful reads, and a result
      it returned came right after a successful run. */
  ghost predicate StepObeyed(decode: string -> Option<JsonValue>, steps: seq<StepResult>, j: nat)
    requires j < |steps|
  {
    var st := steps[j].state;
    && AllPermitted(decode, StartReads(steps, j), st.runs)
    && st.filesRead == ApplyReads(StartReads(steps, j), st.runs)
    && (steps[j].outcome.Done? ==> |st.runs| > 0 && Succeeded(st.runs[|st.runs| - 1].result))
  }

  /** One call of `execute_step`, seen from the step loop: the step started
      from the given previous output, every tool it ran was permitted
      against `files_read` as it stood, `files_read` grew only by the
      step's own successful reads, and a returned result followed a
      successful run. */
  method RunStep(env: Env, step: string, ts: TaskState, fs: FileSystem) returns (r: StepResult)
    ensures SeededWith(r, ts.lastStdout, step)
    ensures ts.filesRead.Keys <= r.state.filesRead.Keys
    ensures AllPermitted(env.decode, ts.filesRead, r.state.runs)
    ensures r.state.filesRead == ApplyReads(ts.filesRead, r.state.runs)
    ensures r.outcome.Done? ==> |r.state.runs| > 0 && Succeeded(r.state.runs[|r.state.runs| - 1].result)
    ensures r.origin == Start(step, ts.lastStdout, ts.filesRead, fs)
    ensures (r.outcome, r.state) == RunPasses(env, r.origin)
  {
    r := ExecuteStep(env, step, ts, fs);
    assert r.state.messages[..2][1] == r.state.messages[1];
  }

  /** The steps that ran so far line up with the plan: the first ones
      returned the recorded results, each started from its predecessor's
      result, and `files_read` lost no key from one step to a later one. */
  ghost predicate Threaded(plan: seq<string>, steps: seq<StepResult>, results: seq<string>) {
    && |results| <= |steps| <= |plan|
    && (forall j {:trigger steps[j]} :: 0 <= j < |results| ==> steps[j].outcome == Done(results[j]))
    && (forall j :: 0 <= j < |steps| && j <= |results| ==> SeededWith(steps[j], PreviousOutput(results, j), plan[j]))
    && (forall j, k :: 0 <= j <= k < |steps| ==> KeptReads(steps[j], steps[k]))
  }

  /** Running the next step keeps the steps in line with the plan. */
  lemma {:induction false} ThreadedStep(plan: seq<string>, steps: seq<StepResult>, results: seq<string>, lastStdout: string, result: StepResult)
    requires Threaded(plan, steps, results) && |steps| == |results| < |plan|
    requires lastStdout == PreviousOutput(results, |results|)
    requires SeededWith(result, lastStdout, plan[|steps|])
    requires |steps| > 0 ==> KeptReads(steps[|steps| - 1], result)
    ensures Threaded(plan, steps + [result], results)
    ensures result.outcome.Done? ==> Threaded(plan, steps + [result], results + [result.outcome.final])
  {
    var i := |steps|;
    var steps' := steps + [result];
    assert forall j :: 0 <= j < i ==> steps'[j] == steps[j];
    forall j, k | 0 <= j <= k < |steps'| ensures KeptReads(steps'[j], steps'[k]) {
      if k == i && j < i {
        assert KeptReads(steps[j], steps[i - 1]);
      }
    }
    if result.outcome.Done? {
      var results' := results + [result.outcome.final];
      assert forall j :: 0 <= j <= i ==> PreviousOutput(results', j) == PreviousOutput(results, j);
    }
  }

  /** Appending a step that kept the rules from where the last one left
      off keeps every step obeying them. */
  lemma {:induction false} ObeyedStep(decode: string -> Option<JsonValue>, steps: seq<StepResult>, result: StepResult)
    requires forall j :: 0 <= j < |steps| ==> StepObeyed(decode, steps, j)
    requires AllPermitted(decode, StartReads(steps, |steps|), result.state.runs)
    requires result.state.filesRead == ApplyReads(StartReads(steps, |steps|), result.state.runs)
    requires result.outcome.Done? ==> |result.state.runs| > 0 && Succeeded(result.state.runs[|result.state.runs| - 1].result)
    ensures forall j :: 0 <= j < |steps| + 1 ==> StepObeyed(decode, steps + [result], j)
  {
    var steps' := steps + [result];
    forall j | 0 <= j < |steps'| ensures StepObeyed(decode, steps', j) {
      assert StartReads(steps', j) == StartReads(steps, j);
      if j < |steps| {
        assert steps'[j] == steps[j];
        assert StepObeyed(decode, steps, j);
      }
    }
  }

  /** Step `j` is what `execute_step` computes: its outcome and final
      state are those of running passes from the state it started in. */
  ghost predicate Ran(env: Env, steps: seq<StepResult>, j: nat)
    requires j < |steps|
  {
    (steps[j].outcome, steps[j].state) == RunPasses(env, steps[j].origin)
  }

  /** Appending a step that ran its passes keeps every step so. */
  lemma {:induction false} RanStep(env: Env, steps: seq<StepResult>, result: StepResult)
    requires forall j :: 0 <= j < |steps| ==> Ran(env, steps, j)
    requires (result.outcome, result.state) == RunPasses(env, result.origin)
    ensures forall j :: 0 <= j < |steps| + 1 ==> Ran(env, steps + [result], j)
  {
    var steps' := steps + [result];
    forall j | 0 <= j < |steps'|
      ensures Ran(env, steps', j)
    {
      if j < |steps| {
        assert steps'[j] == steps[j];
        assert Ran(env, steps, j);
      }
    }
  }

  /** What holds after each step of `run_agent`'s loop: the steps so far
      are threaded as `Threaded` says, each kept to the policy and started
      on its predecessor's reads and files, and only the last step may have
      ended other than `Done`. */
  ghost predicate Progress(env: Env, plan: seq<string>, fs: FileSystem, steps: seq<StepResult>, ts: TaskState, world: FileSystem) {
    && Threaded(plan, steps, ts.stepResults)
    && |steps| <= |ts.stepResults| + 1
    && (|ts.stepResults| < |steps| ==> !steps[|steps| - 1].outcome.Done?)
    && ts.lastStdout == PreviousOutput(ts.stepResults, |ts.stepResults|)
    && ts.filesRead == StartReads(steps, |steps|)
    && world == StartFs(fs, steps, |steps|)
    && (forall j :: 0 <= j < |steps| ==> StepObeyed(env.decode, steps, j))
    && (forall j :: 0 <= j < |steps| ==> StartedInTurn(plan, fs, steps, ts.stepResults, j))
    && (forall j :: 0 <= j < |steps| ==> Ran(env, steps, j))
  }

  /** The task state after a step: `files_read` as the step left it, and
      the step's text appended to the results when it is `Done`. */
  function After(ts: TaskState, result: StepResult): (ts': TaskState)
    ensures ts'.filesRead == result.state.filesRead
    ensures result.outcome.Done? ==>
      ts'.stepResults == ts.stepResults + [result.outcome.final] && ts'.lastStdout == result.outcome.final
    ensures !result.outcome.Done? ==> ts'.stepResults == ts.stepResults && ts'.lastStdout == ts.lastStdout
  {
    var ts1 := ts.(filesRead := result.state.filesRead);
    if result.outcome.Done? then ts1.(stepResults := ts.stepResults + [result.outcome.final], lastStdout := result.outcome.final)
    else ts1
  }

  /** A step run as `RunStep` promises, from where the previous steps left
      off, keeps `Progress`. */
  lemma Advance(env: Env, plan: seq<string>, fs: FileSystem, steps: seq<StepResult>, ts: TaskState, world: FileSystem, result: StepResult)
    requires Progress(env, plan, fs, steps, ts, world)
    requires |steps| == |ts.stepResults| < |plan|
    requires SeededWith(result, ts.lastStdout, plan[|steps|])
    requires ts.filesRead.Keys <= result.state.filesRead.Keys
    requires AllPermitted(env.decode, ts.filesRead, result.state.runs)
    requires result.state.filesRead == ApplyReads(ts.filesRead, result.state.runs)
    requires result.outcome.Done? ==> |result.state.runs| > 0 && Succeeded(result.state.runs[|result.state.runs| - 1].result)
    requires result.origin == Start(plan[|steps|], ts.lastStdout, ts.filesRead, world)
    requires (result.outcome, result.state) == RunPasses(env, result.origin)
    ensures Progress(env, plan, fs, steps + [result], After(ts, result), result.state.fs)
  {
    ThreadedStep(plan, steps, ts.stepResults, ts.lastStdout, result);
    ObeyedStep(env.decode, steps, result);
    StartedInTurnStep(plan, fs, steps, ts.stepResults, result);
    RanStep(env, steps, result);
  }

  /** One turn of `run_agent`'s loop: run the next step of the plan on the
      current files and `files_read`, record it, and record its result only
      when it is `Done`. */
  method RunNext(env: Env, plan: seq<string>, fs: FileSystem, steps: seq<StepResult>, ts: TaskState, world: FileSystem)
    returns (steps': seq<StepResult>, ts': TaskState, world': FileSystem)
    requires Progress(env, plan, fs, steps, ts, world)
    requires |steps| == |ts.stepResults| < |plan|
    ensures Progress(env, plan, fs, steps', ts', world')
    ensures |steps'| == |steps| + 1 && steps' == steps + [steps'[|steps|]]
    ensures steps'[|steps|].outcome.Done? ==> ts'.stepResults == ts.stepResults + [steps'[|steps|].outcome.final]
    ensures !steps'[|steps|].outcome.Done? ==> ts'.stepResults == ts.stepResults
  {
    var result := RunStep(env, plan[|steps|], ts, world);
    Advance(env, plan, fs, steps, ts, world, result);
    steps' := steps + [result];
    ts' := After(ts, result);
    world' := result.state.fs;
  }

  /** `run_agent` from the plan on. */
  method RunAgent(env: Env, plan: seq<string>, fs: FileSystem) returns (r: AgentRun)
    ensures plan == [] <==> r.verdict == NoPlan
    ensures |r.steps| == |r.state.stepResults| + (if r.verdict.StepFailed? || r.verdict.Crashed? then 1 else 0)
    ensures |r.steps| <= |plan|
    ensures r.verdict.Completed? ==>
      && |r.state.stepResults| == |plan| > 0
      && r.verdict.finalResult == r.state.stepResults[|plan| - 1]
    ensures r.verdict.StepFailed? ==>
      && r.verdict.index == |r.state.stepResults| < |plan|
      && r.steps[r.verdict.index].outcome.Failed?
    ensures r.verdict.Crashed? ==>
      && r.verdict.index == |r.state.stepResults| < |plan|
      && r.steps[r.verdict.index].outcome == Raised(r.verdict.exception)
    ensures forall j {:trigger r.steps[j]} :: 0 <= j < |r.state.stepResults| ==> r.steps[j].outcome == Done(r.state.stepResults[j])
    ensures forall j :: 0 <= j < |r.steps| ==> SeededWith(r.steps[j], PreviousOutput(r.state.stepResults, j), plan[j])
    ensures r.state.stepResults != [] ==> r.state.lastStdout == r.state.stepResults[|r.state.stepResults| - 1]
    ensures forall j, k :: 0 <= j <= k < |r.steps| ==> KeptReads(r.steps[j], r.steps[k])
    ensures r.steps != [] ==> r.state.filesRead == r.steps[|r.steps| - 1].state.filesRead
    ensures forall j :: 0 <= j < |r.steps| ==> StepObeyed(env.decode, r.steps, j)
    ensures forall j :: 0 <= j < |r.steps| ==> StartedInTurn(plan, fs, r.steps, r.state.stepResults, j)
    ensures r.fs == StartFs(fs, r.steps, |r.steps|)
    ensures forall j :: 0 <= j < |r.steps| ==> Ran(env, r.steps, j)
  {
    var ts := TaskState([], "", map[]);
    if plan == [] {
      return AgentRun(NoPlan, ts, fs, []);
    }
    var steps: seq<StepResult> := [];
    var world := fs;
    while |steps| < |plan| && |ts.stepResults| == |steps|
      invariant Progress(env, plan, fs, steps, ts, world)
      decreases |plan| - |steps|
    {
      steps, ts, world := RunNext(env, plan, fs, steps, ts, world);
    }
    var verdict: TaskVerdict;
    if |ts.stepResults| == |steps| {
      verdict := Completed(ts.stepResults[|plan| - 1]);
    } else if steps[|steps| - 1].outcome.Raised? {
      verdict := Crashed(|steps| - 1, steps[|steps| - 1].outcome.exception);
    } else {
      verdict := StepFailed(|steps| - 1);
    }
    return AgentRun(verdict, ts, world, steps);
  }

}

=== FILE: policy.dfy ===
/** The checks `execute_step` (app/agent.py) makes before it runs a tool:
    read-before-write for `write_file` and a denylist for `shell`. */
module Policy {
  import opened Wrappers
  import opened Text
  import opened Json
  import opened Tools
  import opened Registry

  /** Fragments that make the agent give up the step outright. The
      destructive commands of `BlockedCommands` are not among them: those
      reach `ShellTool`, which refuses them with an ordinary failed result. */
  const Forbidden: seq<string> := ["pip", "venv", "apt", "yum", "brew", "install"]

  datatype Refusal = BadWritePayload | WriteBeforeRead | ForbiddenCommand

  /** The pre-check either lets the tool run, refuses the step, or raises:
      a list or object `"path"` makes `path not in files_read` throw
      `TypeError`, which nothing in the step catches. */
  datatype Gate = Allow | Refuse(reason: Refusal) | Unhashable

  /** The path a `write_file` input names, when it decodes to an object
      with a `"path"` key; the value may be of any JSON type. */
  function WriteTarget(decode: string -> Option<JsonValue>, input: string): Option<JsonValue> {
    Field(decode(input), "path")
  }

  /** The write names a path that some earlier read recorded. */
  ghost predicate WritePermitted(decode: string -> Option<JsonValue>, input: string, filesRead: map<string, string>) {
    var target := WriteTarget(decode, input);
    target.Some? && target.value.JStr? && target.value.s in filesRead
  }

  /** The rule both checks together state: writes only to files already
      read, shell commands only without a forbidden fragment, and no
      restriction on the other tools. */
  ghost predicate PolicyAllows(decode: string -> Option<JsonValue>, tool: ToolName, input: string, filesRead: map<string, string>) {
    && (tool == WriteFile ==> WritePermitted(decode, input, filesRead))
    && (tool == Shell ==> !ContainsAny(input, Forbidden))
  }

  /** The two pre-checks of `execute_step`, in source order. */
  function Precheck(decode: string -> Option<JsonValue>, tool: ToolName, input: string, filesRead: map<string, string>): (g: Gate)
    ensures g.Allow? <==> PolicyAllows(decode, tool, input, filesRead)
    ensures tool == WriteFile && WriteTarget(decode, input).None? ==> g == Refuse(BadWritePayload)
    ensures g == Refuse(WriteBeforeRead) ==> tool == WriteFile && WriteTarget(decode, input).Some?
    ensures g.Unhashable? <==>
      tool == WriteFile && WriteTarget(decode, input).Some? && !Hashable(WriteTarget(decode, input).value)
    ensures tool == Shell && ContainsAny(input, Forbidden) ==> g == Refuse(ForbiddenCommand)
  {
    if tool == WriteFile then
      match WriteTarget(decode, input)
      case None => Refuse(BadWritePayload)
      case Some(path) =>
        if !Hashable(path) then Unhashable
        else if path.JStr? && path.s in filesRead then Allow
        else Refuse(WriteBeforeRead)
    else if tool == Shell && ContainsAny(input, Forbidden) then Refuse(ForbiddenCommand)
    else Allow
  }

}

=== FILE: registry.dfy ===
/** The `TOOLS` table of app/agent.py: tool names and dispatch. */
module Registry {
  import opened Wrappers
  import opened Json
  import opened Tools

  /** The four registered tools. `list_dir` is registered under its name,
      but its class is not defined in app/tools.py, so its behaviour is an
      oracle. */
  datatype ToolName = Shell | ReadFile | WriteFile | ListDir

  function NameOf(tool: ToolName): string {
    match tool
    case Shell => "shell"
    case ReadFile => "read_file"
    case WriteFile => "write_file"
    case ListDir => "list_dir"
  }

  /** `TOOLS.get(action)`. */
  function LookupTool(action: string): (t: Option<ToolName>)
    ensures t.Some? ==> NameOf(t.value) == action
    ensures t.None? ==> forall tool: ToolName :: NameOf(tool) != action
  {
    if action == "shell" then Some(Shell)
    else if action == "read_file" then Some(ReadFile)
    else if action == "write_file" then Some(WriteFile)
    else if action == "list_dir" then Some(ListDir)
    else None
  }

  /** Every registered tool is found under its own name. */
  lemma LookupNameOf(tool: ToolName)
    ensures LookupTool(NameOf(tool)) == Some(tool)
  {
  }

  /** `tool.run(tool_input)`, with the subprocess, the JSON decoder and the
      directory listing supplied by the caller. */
  function RunTool(
    exec: (string, FileSystem) -> Process,
    listDir: (string, FileSystem) -> ToolResult,
    decode: string -> Option<JsonValue>,
    tool: ToolName, input: string, fs: FileSystem): (e: Execution)
    ensures tool == ReadFile || tool == ListDir ==> e.fs == fs
    ensures tool == ReadFile ==> (e.result.returncode == 0 <==> input in fs)
  {
    match tool
    case Shell => RunShell(exec, input, fs)
    case ReadFile => Execution(RunReadFile(input, fs), fs)
    case WriteFile => RunWriteFile(decode, input, fs)
    case ListDir => Execution(listDir(input, fs), fs)
  }

}

=== FILE: response.dfy ===
/** `validate_response` (app/agent.py): the two reply shapes the agent
    accepts from the model, and the message it gives for every other. */
module Response {
  import opened Json

  /** What an accepted reply asks for. */
  datatype Reply =
    | Final(text: string)
    | Call(action: string, input: string)

  /** The pair `(valid, error)` the source returns; an accepted reply
      carries its reading, which the agent later takes from the object. */
  datatype Verdict =
    | Accept(reply: Reply)
    | Reject(error: string)

  const NotAnObject := "Response is not a JSON object"
  const FinalExtraKeys := "Final response contains extra keys"
  const FinalNotString := "Final value must be string"
  const CallExtraKeys := "Tool call contains extra keys"
  const ActionNotString := "Action must be string"
  const InputNotString := "Input must be string"
  const InvalidStructure := "Invalid JSON structure"

  /** `{"final": <string>}` and nothing else. */
  ghost predicate FinalShape(v: JsonValue) {
    && v.JObj?
    && v.fields.Keys == {"final"}
    && v.fields["final"].JStr?
  }

  /** `{"action": <string>, "input": <string>}` and nothing else. */
  ghost predicate CallShape(v: JsonValue) {
    && v.JObj?
    && v.fields.Keys == {"action", "input"}
    && v.fields["action"].JStr?
    && v.fields["input"].JStr?
  }

  /** The object a reply is written as. */
  function ReplyJson(reply: Reply): JsonValue {
    match reply
    case Final(text) => JObj(map["final" := JStr(text)])
    case Call(action, input) => JObj(map["action" := JStr(action), "input" := JStr(input)])
  }

  /** A map that holds `k` has one entry exactly when `k` is its only key. */
  lemma SingleKey(m: map<string, JsonValue>, k: string)
    requires k in m
    ensures |m| == 1 <==> m.Keys == {k}
  {
    if |m| == 1 {
      var rest := m.Keys - {k};
      assert m.Keys == rest + {k};
      assert |m.Keys| == |rest| + 1;
      assert rest == {};
    }
  }

  /** A map that holds two distinct keys has two entries exactly when they
      are its only keys. */
  lemma TwoKeys(m: map<string, JsonValue>, k1: string, k2: string)
    requires k1 in m && k2 in m && k1 != k2
    ensures |m| == 2 <==> m.Keys == {k1, k2}
  {
    if |m| == 2 {
      var rest := m.Keys - {k1, k2};
      assert m.Keys == rest + {k1, k2};
      assert |m.Keys| == |rest| + 2;
      assert rest == {};
    }
  }

  /** `validate_response`: checks the object type, then a `"final"` key,
      then the `"action"`/`"input"` pair, in that order. */
  function ValidateResponse(v: JsonValue): (r: Verdict)
    ensures r.Accept? <==> FinalShape(v) || CallShape(v)
    ensures r.Accept? && r.reply.Final? ==> FinalShape(v) && v.fields["final"] == JStr(r.reply.text)
    ensures r.Accept? && r.reply.Call? ==>
      && CallShape(v)
      && v.fields["action"] == JStr(r.reply.action)
      && v.fields["input"] == JStr(r.reply.input)
    ensures r.Reject? ==> r.error != ""
    ensures !v.JObj? ==> r == Reject(NotAnObject)
  {
    if !v.JObj? then Reject(NotAnObject)
    else
      var m := v.fields;
      if "final" in m then
        SingleKey(m, "final");
        if |m| != 1 then Reject(FinalExtraKeys)
        else if !m["final"].JStr? then Reject(FinalNotString)
        else Accept(Final(m["final"].s))
      else if "action" in m && "input" in m then
        TwoKeys(m, "action", "input");
        if |m| != 2 then Reject(CallExtraKeys)
        else if !m["action"].JStr? then Reject(ActionNotString)
        else if !m["input"].JStr? then Reject(InputNotString)
        else Accept(Call(m["action"].s, m["input"].s))
      else Reject(InvalidStructure)
  }

  /** The accepted values are exactly the written forms of replies, and
      each is read back as the reply it writes. */
  lemma AcceptExactly(v: JsonValue, reply: Reply)
    ensures ValidateResponse(v) == Accept(reply) <==> v == ReplyJson(reply)
  {
    if ValidateResponse(v) == Accept(reply) {
      match reply
      case Final(text) =>
        assert v.fields == map["final" := JStr(text)];
      case Call(action, input) =>
        assert v.fields == map["action" := JStr(action), "input" := JStr(input)];
    }
    if v == ReplyJson(reply) {
      match reply
      case Final(text) =>
        assert v.fields.Keys == {"final"};
      case Call(action, input) =>
        assert v.fields.Keys == {"action", "input"};
    }
  }

  /** `"final"` is looked at first: an object carrying `"final"` next to a
      well-formed tool call is refused for its extra keys. */
  lemma FinalCheckedFirst(text: string, action: string, input: string)
    ensures ValidateResponse(JObj(map["final" := JStr(text), "action" := JStr(action), "input" := JStr(input)]))
         == Reject(FinalExtraKeys)
  {
    var m := map["final" := JStr(text), "action" := JStr(action), "input" := JStr(input)];
    assert m.Keys == {"final", "action", "input"};
    assert |m| == 3;
  }

}

=== FILE: step.dfy ===
/** `execute_step` (app/agent.py): one plan step as a bounded conversation
    with the model. Each iteration asks the model once, validates the
    reply, applies the pre-checks, runs at most one tool and either ends
    the step or appends two messages and goes round again. */
module StepExecutor {
  import opened Wrappers
  import opened Text
  import opened Json
  import opened Tools
  import opened Registry
  import opened Policy
  import opened Response

  const MaxRetries: nat := 5

  datatype Role = System | Assistant | User

  /** What a message says. The prompt wording is left out; each message
      keeps the values the source interpolates into it. */
  datatype Content =
    | SystemPrompt
    | StepPrompt(lastStdout: string, step: string)
    | Raw(text: string)
    | FinalRefused
    | ToolFailed(returncode: int, stderr: string)
    | ToolSucceeded(stdout: string)

  datatype Message = Message(role: Role, content: Content)

  /** The collaborators the loop calls: the model (`None` when the request
      raises), `json.loads` (`None` on a decode error), the shell, and the
      undefined `list_dir` tool. */
  datatype Env = Env(
    ask: seq<Message> -> Option<string>,
    decode: string -> Option<JsonValue>,
    exec: (string, FileSystem) -> Process,
    listDir: (string, FileSystem) -> ToolResult)

  /** The task state shared by all steps. */
  datatype TaskState = TaskState(stepResults: seq<string>, lastStdout: string, filesRead: map<string, string>)

  /** One invocation of `tool.run`. */
  datatype ToolRun = ToolRun(tool: ToolName, input: string, result: ToolResult)

  /** Why a step returned `None`. */
  datatype Abort =
    | RetryLimit
    | InvalidJson
    | InvalidReply(error: string)
    | UnknownTool(action: string)
    | Refused(reason: Refusal)

  /** Exceptions that escape `execute_step`. */
  datatype Exception = TransportError | UnhashablePath

  /** `Done(text)` is the returned string, `Failed` the returned `None`,
      `Raised` an exception propagating to the caller. */
  datatype Outcome = Done(final: string) | Failed(cause: Abort) | Raised(exception: Exception)

  /** The loop variables of `execute_step`, the part of the task state it
      writes, the file system, and a log of the tool runs and model queries
      made so far in this step. */
  datatype StepState = StepState(
    messages: seq<Message>,
    retryCount: nat,
    lastOk: bool,
    filesRead: map<string, string>,
    fs: FileSystem,
    runs: seq<ToolRun>,
    queries: nat)

  datatype Transition = Continue(next: StepState) | Stop(outcome: Outcome, last: StepState)

  /** How a step ended, the state it ended in, and the state it started from. */
  datatype StepResult = StepResult(outcome: Outcome, state: StepState, origin: StepState)

  /** The two messages every step starts from. */
  function Seed(lastStdout: string, step: string): seq<Message> {
    [Message(System, SystemPrompt), Message(User, StepPrompt(lastStdout, step))]
  }

  /** The agent's success rule: a zero exit code and nothing on stderr. */
  function Succeeded(r: ToolResult): (b: bool)
    ensures !b <==> r.returncode != 0 || |r.stderr| > 0
  {
    r.returncode == 0 && r.stderr == ""
  }

  /** The user message that reports a tool result. */
  function Feedback(r: ToolResult): Content {
    if Succeeded(r) then ToolSucceeded(r.stdout) else ToolFailed(r.returncode, r.stderr)
  }

  /** How the success rule classifies what each tool returns: a read
      succeeds exactly when the file exists, a blocked command never does,
      a write exactly when it reports code 0, and a shell command exactly
      when it is not blocked, exits with 0 and prints only whitespace on
      stderr. */
  lemma ToolsReportSuccess(exec: (string, FileSystem) -> Process, decode: string -> Option<JsonValue>, input: string, fs: FileSystem)
    ensures Succeeded(RunReadFile(input, fs)) <==> input in fs
    ensures !Succeeded(BlockedResult)
    ensures Succeeded(RunWriteFile(decode, input, fs).result) <==> RunWriteFile(decode, input, fs).result.returncode == 0
    ensures Succeeded(RunShell(exec, input, fs).result) <==>
      !ContainsAny(input, BlockedCommands) && exec(input, fs).returncode == 0 && Strip(exec(input, fs).stderr) == ""
  {
  }

  // ---------------------------------------------------------------------
  // files_read bookkeeping
  // ---------------------------------------------------------------------

  /** A `read_file` run that returned code 0. */
  predicate IsSuccessfulRead(run: ToolRun) {
    run.tool == ReadFile && run.result.returncode == 0
  }

  /** `files_read[tool_input] = stdout` after a successful read. */
  function Record(filesRead: map<string, string>, run: ToolRun): map<string, string> {
    if IsSuccessfulRead(run) then filesRead[run.input := run.result.stdout] else filesRead
  }

  /** `files_read` after a sequence of runs: it never loses a key, and every
      key it gains is the input of a successful read among the runs. */
  function ApplyReads(filesRead: map<string, string>, runs: seq<ToolRun>): (m: map<string, string>)
    ensures filesRead.Keys <= m.Keys
    ensures forall k :: k in m && k !in filesRead ==>
      exists i :: 0 <= i < |runs| && IsSuccessfulRead(runs[i]) && runs[i].input == k
    decreases |runs|
  {
    if runs == [] then filesRead
    else
      var prefix := runs[..|runs| - 1];
      var m := Record(ApplyReads(filesRead, prefix), runs[|runs| - 1]);
      assert forall i :: 0 <= i < |prefix| ==> prefix[i] == runs[i];
      m
  }

  /** Every run so far obeyed the pre-checks against `files_read` as it
      stood just before that run (stated run by run in `PermittedAt`). */
  ghost predicate AllPermitted(decode: string -> Option<JsonValue>, filesRead: map<string, string>, runs: seq<ToolRun>)
    decreases |runs|
  {
    runs == [] ||
      var prefix := runs[..|runs| - 1];
      && AllPermitted(decode, filesRead, prefix)
      && PolicyAllows(decode, runs[|runs| - 1].tool, runs[|runs| - 1].input, ApplyReads(filesRead, prefix))
  }

  /** Run `i` of a permitted log was allowed against the `files_read` the
      runs before it produced. */
  lemma {:induction false} PermittedAt(decode: string -> Option<JsonValue>, filesRead: map<string, string>, runs: seq<ToolRun>, i: nat)
    requires AllPermitted(decode, filesRead, runs) && i < |runs|
    ensures PolicyAllows(decode, runs[i].tool, runs[i].input, ApplyReads(filesRead, runs[..i]))
    decreases |runs|
  {
    var prefix := runs[..|runs| - 1];
    if i < |prefix| {
      PermittedAt(decode, filesRead, prefix, i);
      assert prefix[..i] == runs[..i];
    }
  }

  // ---------------------------------------------------------------------
  // One iteration
  // ---------------------------------------------------------------------

  /** The bookkeeping of every continuing iteration. */
  function Retry(s: StepState, response: string, feedback: Content): StepState {
    s.(messages := s.messages + [Message(Assistant, Raw(response)), Message(User, feedback)],
       retryCount := s.retryCount + 1)
  }

  /** `s'` continues `s` after the model answered `response`: one more query
      and one more retry, and the conversation grew by the raw reply
      followed by one user message. */
  ghost predicate RetriedWith(s: StepState, s': StepState, response: string) {
    && s'.retryCount == s.retryCount + 1
    && s'.queries == s.queries + 1
    && |s'.messages| == |s.messages| + 2
    && s'.messages[..|s.messages|] == s.messages
    && s'.messages[|s.messages|] == Message(Assistant, Raw(response))
    && s'.messages[|s.messages| + 1].role == User
  }

  /** `s'` continues `s` after exactly one tool run that the pre-checks
      allowed, with the success flag, `files_read` and the reported result
      following that run. */
  ghost predicate RanOneTool(decode: string -> Option<JsonValue>, s: StepState, s': StepState) {
    && |s'.runs| == |s.runs| + 1
    && s'.runs[..|s.runs|] == s.runs
    && var run := s'.runs[|s.runs|];
    && PolicyAllows(decode, run.tool, run.input, s.filesRead)
    && s'.lastOk == Succeeded(run.result)
    && s'.filesRead == Record(s.filesRead, run)
    && |s'.messages| == |s.messages| + 2
    && s'.messages[|s.messages| + 1] == Message(User, Feedback(run.result))
  }

  /** `s'` continues `s` after a refused final answer: nothing ran and the
      model is told to run a tool first. */
  ghost predicate RefusedFinal(s: StepState, s': StepState) {
    && s'.runs == s.runs
    && s'.filesRead == s.filesRead
    && s'.fs == s.fs
    && !s.lastOk && !s'.lastOk
    && |s'.messages| == |s.messages| + 2
    && s'.messages[|s.messages| + 1] == Message(User, FinalRefused)
  }

  /** How `execute_step` reads the model's text: `parse_json_response`,
      the `if not parsed` truth test, then `validate_response`. */
  datatype Reading = Malformed | Invalid(error: string) | Accepted(reply: Reply)

  function ReadReply(decode: string -> Option<JsonValue>, response: string): (r: Reading)
    ensures r.Malformed? <==> decode(response).None? || !Truthy(decode(response).value)
    ensures r.Invalid? ==> r.error != ""
    ensures r.Accepted? ==> decode(response) == Some(ReplyJson(r.reply))
  {
    var parsed := decode(response);
    if parsed.None? || !Truthy(parsed.value) then Malformed
    else
      match ValidateResponse(parsed.value)
      case Reject(error) => Invalid(error)
      case Accept(reply) =>
        AcceptExactly(parsed.value, reply);
        Accepted(reply)
  }

  /** Runs a tool the pre-checks let through and does the bookkeeping that
      follows: the success flag, `files_read`, the log and the two
      messages. */
  function Execute(env: Env, s: StepState, response: string, tool: ToolName, input: string): (s': StepState)
    ensures |s'.runs| == |s.runs| + 1 && s'.runs[..|s.runs|] == s.runs
    ensures s'.runs[|s.runs|] == ToolRun(tool, input, RunTool(env.exec, env.listDir, env.decode, tool, input, s.fs).result)
    ensures s'.fs == RunTool(env.exec, env.listDir, env.decode, tool, input, s.fs).fs
    ensures s'.lastOk == Succeeded(s'.runs[|s.runs|].result)
    ensures s'.filesRead == Record(s.filesRead, s'.runs[|s.runs|])
    ensures s'.messages == s.messages + [Message(Assistant, Raw(response)), Message(User, Feedback(s'.runs[|s.runs|].result))]
    ensures s'.retryCount == s.retryCount + 1 && s'.queries == s.queries
  {
    var e := RunTool(env.exec, env.listDir, env.decode, tool, input, s.fs);
    var run := ToolRun(tool, input, e.result);
    var s' := s.(lastOk := Succeeded(e.result), filesRead := Record(s.filesRead, run),
                 fs := e.fs, runs := s.runs + [run]);
    assert s'.runs[|s.runs|] == run;
    Retry(s', response, Feedback(e.result))
  }

  /** A tool call: look the tool up, apply the pre-checks, run it. */
  function Dispatch(env: Env, s: StepState, response: string, action: string, input: string): (t: Transition)
    ensures t.Continue? ==> RanOneTool(env.decode, s, t.next)
    ensures t.Continue? ==> t.next.messages[..|s.messages|] == s.messages
    ensures t.Continue? ==> t.next.messages[|s.messages|] == Message(Assistant, Raw(response))
    ensures t.Continue? ==> t.next.retryCount == s.retryCount + 1 && t.next.queries == s.queries
    ensures t.Stop? ==> t.last == s && !t.outcome.Done? && t.outcome != Failed(RetryLimit)
    ensures t.Stop? <==>
      LookupTool(action).None? || !Precheck(env.decode, LookupTool(action).value, input, s.filesRead).Allow?
    ensures t.Continue? ==>
      var tool := LookupTool(action).value;
      var e := RunTool(env.exec, env.listDir, env.decode, tool, input, s.fs);
      && t.next.runs == s.runs + [ToolRun(tool, input, e.result)]
      && t.next.fs == e.fs
  {
    match LookupTool(action)
    case None => Stop(Failed(UnknownTool(action)), s)
    case Some(tool) =>
      match Precheck(env.decode, tool, input, s.filesRead)
      case Refuse(reason) => Stop(Failed(Refused(reason)), s)
      case Unhashable => Stop(Raised(UnhashablePath), s)
      case Allow => Continue(Execute(env, s, response, tool, input))
  }

  /** One pass of the `while True` body, entered with retries to spare. */
  function Iterate(env: Env, s: StepState): (t: Transition)
    requires s.retryCount < MaxRetries
    ensures t.Continue? ==> env.ask(s.messages).Some? && RetriedWith(s, t.next, env.ask(s.messages).value)
    ensures t.Continue? ==> RefusedFinal(s, t.next) || RanOneTool(env.decode, s, t.next)
    ensures t.Stop? ==> t.last == s.(queries := s.queries + 1)
    ensures t.Stop? ==> t.outcome != Failed(RetryLimit)
    ensures t.Stop? && t.outcome.Done? ==> s.lastOk
  {
    var s1 := s.(queries := s.queries + 1);
    match env.ask(s.messages)
    case None => Stop(Raised(TransportError), s1)
    case Some(response) =>
      match ReadReply(env.decode, response)
      case Malformed => Stop(Failed(InvalidJson), s1)
      case Invalid(error) => Stop(Failed(InvalidReply(error)), s1)
      case Accepted(Final(text)) =>
        if !s.lastOk then Continue(Retry(s1, response, FinalRefused))
        else Stop(Done(text), s1)
      case Accepted(Call(action, input)) => Dispatch(env, s1, response, action, input)
  }

  // ---------------------------------------------------------------------
  // The loop
  // ---------------------------------------------------------------------

  /** The state `execute_step` starts from. */
  function Start(step: string, lastStdout: string, filesRead: map<string, string>, fs: FileSystem): StepState {
    StepState(Seed(lastStdout, step), 0, false, filesRead, fs, [], 0)
  }

  /** The invariant of the `while True` loop, at the top of each pass. */
  ghost predicate Reachable(env: Env, step: string, ts: TaskState, s: StepState) {
    && s.retryCount <= MaxRetries
    && s.queries == s.retryCount
    && |s.messages| == 2 + 2 * s.retryCount
    && s.messages[..2] == Seed(ts.lastStdout, step)
    && |s.runs| <= s.retryCount
    && (s.lastOk <==> |s.runs| > 0 && Succeeded(s.runs[|s.runs| - 1].result))
    && s.filesRead == ApplyReads(ts.filesRead, s.runs)
    && AllPermitted(env.decode, ts.filesRead, s.runs)
  }

  /** Appending a run applies its read last. */
  lemma {:induction false} ApplyReadsSnoc(filesRead: map<string, string>, runs: seq<ToolRun>, run: ToolRun)
    ensures ApplyReads(filesRead, runs + [run]) == Record(ApplyReads(filesRead, runs), run)
  {
    assert (runs + [run])[..|runs|] == runs;
  }

  /** Appending a run that was permitted when it ran keeps every run permitted. */
  lemma {:induction false} AllPermittedSnoc(decode: string -> Option<JsonValue>, filesRead: map<string, string>, runs: seq<ToolRun>, run: ToolRun)
    requires AllPermitted(decode, filesRead, runs)
    requires PolicyAllows(decode, run.tool, run.input, ApplyReads(filesRead, runs))
    ensures AllPermitted(decode, filesRead, runs + [run])
  {
    assert (runs + [run])[..|runs|] == runs;
  }

  /** The invariant survives a pass that refused a final answer. */
  lemma {:induction false} RefusalKeepsReachable(env: Env, step: string, ts: TaskState, s: StepState, s': StepState, response: string)
    requires Reachable(env, step, ts, s) && s.retryCount < MaxRetries && RetriedWith(s, s', response) && RefusedFinal(s, s')
    ensures Reachable(env, step, ts, s')
  {
    assert s'.messages[..2] == s'.messages[..|s.messages|][..2];
  }

  /** The invariant survives a pass that ran one permitted tool. */
  lemma {:induction false} RunKeepsReachable(env: Env, step: string, ts: TaskState, s: StepState, s': StepState, response: string)
    requires Reachable(env, step, ts, s) && s.retryCount < MaxRetries && RetriedWith(s, s', response) && RanOneTool(env.decode, s, s')
    ensures Reachable(env, step, ts, s')
  {
    assert s'.messages[..2] == s'.messages[..|s.messages|][..2];
    var run := s'.runs[|s.runs|];
    assert s'.runs == s.runs + [run];
    ApplyReadsSnoc(ts.filesRead, s.runs, run);
    AllPermittedSnoc(env.decode, ts.filesRead, s.runs, run);
  }

  /** A continuing iteration keeps the loop invariant. */
  lemma {:induction false} IterateKeepsReachable(env: Env, step: string, ts: TaskState, s: StepState)
    requires Reachable(env, step, ts, s) && s.retryCount < MaxRetries
    requires Iterate(env, s).Continue?
    ensures Reachable(env, step, ts, Iterate(env, s).next)
  {
    var s' := Iterate(env, s).next;
    var response := env.ask(s.messages).value;
    if RefusedFinal(s, s') {
      RefusalKeepsReachable(env, step, ts, s, s', response);
    } else {
      RunKeepsReachable(env, step, ts, s, s', response);
    }
  }

  /** `execute_step` as a recursion over passes: with retries to spare,
      make one more pass; with none left, give up with the state reached. */
  function RunPasses(env: Env, s: StepState): (Outcome, StepState)
    decreases MaxRetries - s.retryCount, 1
  {
    if s.retryCount >= MaxRetries then (Failed(RetryLimit), s) else OnePass(env, s)
  }

  /** One pass, then either its outcome or the rest of the passes. */
  function OnePass(env: Env, s: StepState): (Outcome, StepState)
    requires s.retryCount < MaxRetries
    decreases MaxRetries - s.retryCount, 0
  {
    match Iterate(env, s)
    case Stop(outcome, last) => (outcome, last)
    case Continue(next) => RunPasses(env, next)
  }

  /** `execute_step`: asks the model at most five times and returns the
      final answer only right after a successful tool run. */
  method ExecuteStep(env: Env, step: string, ts: TaskState, fs: FileSystem) returns (r: StepResult)
    ensures |r.state.messages| == 2 + 2 * r.state.retryCount
    ensures r.state.messages[..2] == Seed(ts.lastStdout, step)
    ensures r.state.retryCount <= MaxRetries && r.state.queries <= MaxRetries
    ensures r.outcome == Failed(RetryLimit) <==> r.state.retryCount == MaxRetries
    ensures r.state.queries == r.state.retryCount + (if r.outcome == Failed(RetryLimit) then 0 else 1)
    ensures r.outcome.Done? ==> |r.state.runs| > 0 && Succeeded(r.state.runs[|r.state.runs| - 1].result)
    ensures |r.state.runs| <= r.state.retryCount
    ensures r.state.filesRead == ApplyReads(ts.filesRead, r.state.runs)
    ensures ts.filesRead.Keys <= r.state.filesRead.Keys
    ensures AllPermitted(env.decode, ts.filesRead, r.state.runs)
    ensures r.origin == Start(step, ts.lastStdout, ts.filesRead, fs)
    ensures (r.outcome, r.state) == RunPasses(env, r.origin)
  {
    var start := Start(step, ts.lastStdout, ts.filesRead, fs);
    var s := start;
    while s.retryCount < MaxRetries
      invariant Reachable(env, step, ts, s)
      invariant RunPasses(env, s) == RunPasses(env, start)
      decreases MaxRetries - s.retryCount
    {
      var t := Iterate(env, s);
      assert RunPasses(env, s) == OnePass(env, s);
      if t.Stop? {
        return StepResult(t.outcome, t.last, start);
      }
      IterateKeepsReachable(env, step, ts, s);
      s := t.next;
    }
    return StepResult(Failed(RetryLimit), s, start);
  }

}

=== FILE: step_properties.dfy ===
/** What one pass of `execute_step` does with each kind of reply: the
    abort paths, the gate on final answers, and the tool runs that are
    retried rather than aborted. */
module StepProperties {
  import opened Wrappers
  import opened Text
  import opened Json
  import opened Tools
  import opened Registry
  import opened Policy
  import opened Response
  import opened StepExecutor

  /** A reply that decodes to the written form of `reply` is read as `reply`. */
  lemma ReadsAs(decode: string -> Option<JsonValue>, response: string, reply: Reply)
    requires decode(response) == Some(ReplyJson(reply))
    ensures ReadReply(decode, response) == Accepted(reply)
  {
    AcceptExactly(ReplyJson(reply), reply);
    match reply
    case Final(text) => assert "final" in ReplyJson(reply).fields;
    case Call(action, input) => assert "action" in ReplyJson(reply).fields;
  }

  /** The model answered `response` and it decodes to the written form of
      `reply`. */
  ghost predicate Answered(env: Env, s: StepState, response: string, reply: Reply) {
    && env.ask(s.messages) == Some(response)
    && env.decode(response) == Some(ReplyJson(reply))
  }

  /** A request to the model that raises is not caught: it escapes the
      step as an exception, with only the query counted. */
  lemma TransportErrorRaises(env: Env, s: StepState)
    requires s.retryCount < MaxRetries
    requires env.ask(s.messages).None?
    ensures Iterate(env, s) == Stop(Raised(TransportError), s.(queries := s.queries + 1))
  {
  }

  /** Text that does not decode, or decodes to a false value such as `{}`,
      `[]`, `""`, `0`, `false` or `null`, ends the step at once. */
  lemma MalformedReplyAborts(env: Env, s: StepState, response: string)
    requires s.retryCount < MaxRetries
    requires env.ask(s.messages) == Some(response)
    requires env.decode(response).None? || !Truthy(env.decode(response).value)
    ensures Iterate(env, s) == Stop(Failed(InvalidJson), s.(queries := s.queries + 1))
  {
  }

  /** A truthy reply of the wrong shape ends the step with the validator's
      message. */
  lemma InvalidReplyAborts(env: Env, s: StepState, response: string, v: JsonValue)
    requires s.retryCount < MaxRetries
    requires env.ask(s.messages) == Some(response) && env.decode(response) == Some(v)
    requires Truthy(v) && !FinalShape(v) && !CallShape(v)
    ensures Iterate(env, s).Stop?
    ensures Iterate(env, s).outcome == Failed(InvalidReply(ValidateResponse(v).error))
    ensures ValidateResponse(v).error != ""
  {
  }

  /** A tool call goes to dispatch, after one more query. */
  lemma CallDispatches(env: Env, s: StepState, response: string, action: string, input: string)
    requires s.retryCount < MaxRetries
    requires Answered(env, s, response, Call(action, input))
    ensures Iterate(env, s) == Dispatch(env, s.(queries := s.queries + 1), response, action, input)
  {
    ReadsAs(env.decode, response, Call(action, input));
  }

  /** A final answer ends the step exactly when the last tool run of the
      step succeeded; otherwise it costs a retry and nothing runs. */
  lemma FinalGatedBySuccess(env: Env, s: StepState, response: string, text: string)
    requires s.retryCount < MaxRetries
    requires Answered(env, s, response, Final(text))
    ensures s.lastOk ==> Iterate(env, s) == Stop(Done(text), s.(queries := s.queries + 1))
    ensures !s.lastOk ==> Iterate(env, s) == Continue(s.(
      queries := s.queries + 1,
      retryCount := s.retryCount + 1,
      messages := s.messages + [Message(Assistant, Raw(response)), Message(User, FinalRefused)]))
  {
    ReadsAs(env.decode, response, Final(text));
  }

  /** An action outside the registry ends the step without running anything. */
  lemma UnknownToolAborts(env: Env, s: StepState, response: string, action: string, input: string)
    requires s.retryCount < MaxRetries
    requires Answered(env, s, response, Call(action, input))
    requires LookupTool(action).None?
    ensures Iterate(env, s) == Stop(Failed(UnknownTool(action)), s.(queries := s.queries + 1))
  {
    CallDispatches(env, s, response, action, input);
  }

  /** A shell command holding `pip`, `venv`, `apt`, `yum`, `brew` or
      `install` ends the step before the shell is reached. */
  lemma ForbiddenShellAborts(env: Env, s: StepState, response: string, input: string)
    requires s.retryCount < MaxRetries
    requires Answered(env, s, response, Call("shell", input))
    requires ContainsAny(input, Forbidden)
    ensures Iterate(env, s) == Stop(Failed(Refused(ForbiddenCommand)), s.(queries := s.queries + 1))
  {
    CallDispatches(env, s, response, "shell", input);
  }

  /** A `write_file` input that is not an object with a `"path"` key ends
      the step before the tool is reached. */
  lemma BadWritePayloadAborts(env: Env, s: StepState, response: string, input: string)
    requires s.retryCount < MaxRetries
    requires Answered(env, s, response, Call("write_file", input))
    requires WriteTarget(env.decode, input).None?
    ensures Iterate(env, s) == Stop(Failed(Refused(BadWritePayload)), s.(queries := s.queries + 1))
  {
    CallDispatches(env, s, response, "write_file", input);
  }

  /** A write to a path no earlier read recorded ends the step before the
      tool is reached; a list or object path raises instead. */
  lemma UnreadWriteAborts(env: Env, s: StepState, response: string, input: string)
    requires s.retryCount < MaxRetries
    requires Answered(env, s, response, Call("write_file", input))
    requires WriteTarget(env.decode, input).Some? && !WritePermitted(env.decode, input, s.filesRead)
    ensures Hashable(WriteTarget(env.decode, input).value) ==>
      Iterate(env, s) == Stop(Failed(Refused(WriteBeforeRead)), s.(queries := s.queries + 1))
    ensures !Hashable(WriteTarget(env.decode, input).value) ==>
      Iterate(env, s) == Stop(Raised(UnhashablePath), s.(queries := s.queries + 1))
  {
    CallDispatches(env, s, response, "write_file", input);
  }

  /** A destructive command (`rm `, `shutdown`, ...) without a forbidden
      fragment is not an abort: the shell tool refuses it with a failed
      result, which is reported back and retried. */
  lemma BlockedShellIsRetried(env: Env, s: StepState, response: string, input: string)
    requires s.retryCount < MaxRetries
    requires Answered(env, s, response, Call("shell", input))
    requires ContainsAny(input, BlockedCommands) && !ContainsAny(input, Forbidden)
    ensures Iterate(env, s).Continue?
    ensures Iterate(env, s).next.runs == s.runs + [ToolRun(Shell, input, BlockedResult)]
    ensures Iterate(env, s).next.fs == s.fs && !Iterate(env, s).next.lastOk
    ensures Iterate(env, s).next.retryCount == s.retryCount + 1
  {
    CallDispatches(env, s, response, "shell", input);
  }

  /** Reading an existing file succeeds and records its stripped content,
      as text mode reads it, under the path as written. */
  lemma ReadRecordsContent(env: Env, s: StepState, response: string, path: string)
    requires s.retryCount < MaxRetries
    requires Answered(env, s, response, Call("read_file", path))
    requires path in s.fs
    ensures Iterate(env, s).Continue?
    ensures Iterate(env, s).next.lastOk && Iterate(env, s).next.fs == s.fs
    ensures path in Iterate(env, s).next.filesRead
    ensures IsTrimOf(Iterate(env, s).next.filesRead[path], TranslateNewlines(s.fs[path]))
  {
    CallDispatches(env, s, response, "read_file", path);
  }

  /** A shell command with neither a forbidden word nor a blocked fragment
      runs: the step logs the stripped process result, takes on the file
      system the command left, and counts the run a success exactly when
      the code is 0 and the stripped stderr is empty. */
  lemma ShellCommandRuns(env: Env, s: StepState, response: string, input: string)
    requires s.retryCount < MaxRetries
    requires Answered(env, s, response, Call("shell", input))
    requires !ContainsAny(input, Forbidden) && !ContainsAny(input, BlockedCommands)
    ensures Iterate(env, s).Continue?
    ensures Iterate(env, s).next.runs == s.runs + [ToolRun(Shell, input, RunShell(env.exec, input, s.fs).result)]
    ensures Iterate(env, s).next.fs == env.exec(input, s.fs).fs
    ensures Iterate(env, s).next.lastOk <==>
      env.exec(input, s.fs).returncode == 0 && Strip(env.exec(input, s.fs).stderr) == ""
    ensures Iterate(env, s).next.filesRead == s.filesRead
  {
    CallDispatches(env, s, response, "shell", input);
  }

  /** Reading a missing file is a failed run: retried, `files_read` as before. */
  lemma ReadMissingIsRetried(env: Env, s: StepState, response: string, path: string)
    requires s.retryCount < MaxRetries
    requires Answered(env, s, response, Call("read_file", path))
    requires path !in s.fs
    ensures Iterate(env, s).Continue?
    ensures !Iterate(env, s).next.lastOk
    ensures Iterate(env, s).next.filesRead == s.filesRead
    ensures Iterate(env, s).next.runs == s.runs + [ToolRun(ReadFile, path, FileNotFound)]
  {
    CallDispatches(env, s, response, "read_file", path);
  }

  /** Writing a file that was read earlier in the task replaces exactly
      that file's content. */
  lemma WriteAfterRead(env: Env, s: StepState, response: string, input: string, path: string, content: string)
    requires s.retryCount < MaxRetries
    requires Answered(env, s, response, Call("write_file", input))
    requires env.decode(input) == Some(JObj(map["path" := JStr(path), "content" := JStr(content)]))
    requires path in s.filesRead
    ensures Iterate(env, s).Continue?
    ensures Iterate(env, s).next.fs == s.fs[path := content]
    ensures Iterate(env, s).next.lastOk
  {
    CallDispatches(env, s, response, "write_file", input);
  }

  /** A write payload without `"content"` passes the agent's pre-check and
      fails inside the tool: retried, nothing written. */
  lemma WriteWithoutContentIsRetried(env: Env, s: StepState, response: string, input: string, path: string)
    requires s.retryCount < MaxRetries
    requires Answered(env, s, response, Call("write_file", input))
    requires env.decode(input) == Some(JObj(map["path" := JStr(path)]))
    requires path in s.filesRead
    ensures Iterate(env, s).Continue?
    ensures Iterate(env, s).next.fs == s.fs && !Iterate(env, s).next.lastOk
    ensures Iterate(env, s).next.runs == s.runs + [ToolRun(WriteFile, input, ErrorResult(MissingContent))]
  {
    CallDispatches(env, s, response, "write_file", input);
  }

  /** A read of an existing file makes the next pass's write to it
      permitted, and that write lands. */
  lemma ReadThenWrite(env: Env, s: StepState, readReply: string, writeReply: string, input: string, path: string, content: string)
    requires s.retryCount + 1 < MaxRetries
    requires path in s.fs
    requires Answered(env, s, readReply, Call("read_file", path))
    requires env.decode(input) == Some(JObj(map["path" := JStr(path), "content" := JStr(content)]))
    requires Iterate(env, s).Continue? && Answered(env, Iterate(env, s).next, writeReply, Call("write_file", input))
    ensures Iterate(env, Iterate(env, s).next).Continue?
    ensures Iterate(env, Iterate(env, s).next).next.fs == s.fs[path := content]
  {
    ReadRecordsContent(env, s, readReply, path);
    WriteAfterRead(env, Iterate(env, s).next, writeReply, input, path, content);
  }

}

=== FILE: text.dfy ===
/** String helpers with Python semantics: `str.strip()` and the substring
    test `word in text`. */
module Text {

  /** Python's `str.isspace()` for one character: the set `str.strip()`
      removes when called without arguments. */
  predicate IsSpace(c: char) {
    var n := c as int;
    || (9 <= n <= 13)
    || (28 <= n <= 32)
    || n == 0x85 || n == 0xA0 || n == 0x1680
    || (0x2000 <= n <= 0x200A)
    || n == 0x2028 || n == 0x2029 || n == 0x202F || n == 0x205F || n == 0x3000
  }

  /** `s[i..j]` is what remains of `s` once the leading and trailing
      whitespace is removed: everything outside is whitespace and, when
      the window is not empty, both of its ends are not. */
  ghost predicate TrimWindow(s: string, i: int, j: int) {
    && 0 <= i <= j <= |s|
    && (forall k :: 0 <= k < i ==> IsSpace(s[k]))
    && (forall k :: j <= k < |s| ==> IsSpace(s[k]))
    && (i < j ==> !IsSpace(s[i]) && !IsSpace(s[j - 1]))
  }

  /** `t` is `s` with its surrounding whitespace removed. */
  ghost predicate IsTrimOf(t: string, s: string) {
    exists i, j :: TrimWindow(s, i, j) && t == s[i..j]
  }

  /** The first index at or after `i` that does not hold whitespace, or
      `|s|` when there is none. */
  function SkipSpace(s: string, i: nat): (k: nat)
    requires i <= |s|
    ensures i <= k <= |s|
    ensures forall m :: i <= m < k ==> IsSpace(s[m])
    ensures k < |s| ==> !IsSpace(s[k])
    decreases |s| - i
  {
    if i < |s| && IsSpace(s[i]) then SkipSpace(s, i + 1) else i
  }

  /** The end of `s[lo..j]` once its trailing whitespace is dropped. */
  function SkipSpaceBack(s: string, lo: nat, j: nat): (k: nat)
    requires lo <= j <= |s|
    ensures lo <= k <= j
    ensures forall m :: k <= m < j ==> IsSpace(s[m])
    ensures k > lo ==> !IsSpace(s[k - 1])
    decreases j
  {
    if j > lo && IsSpace(s[j - 1]) then SkipSpaceBack(s, lo, j - 1) else j
  }

  /** Python's `s.strip()`. */
  function Strip(s: string): (r: string)
    ensures IsTrimOf(r, s)
  {
    var i := SkipSpace(s, 0);
    var j := SkipSpaceBack(s, i, |s|);
    assert TrimWindow(s, i, j);
    s[i..j]
  }

  /** Stripping is well defined: two trims of the same string agree. */
  lemma TrimUnique(s: string, t1: string, t2: string)
    requires IsTrimOf(t1, s) && IsTrimOf(t2, s)
    ensures t1 == t2
  {
    var i1, j1 :| TrimWindow(s, i1, j1) && t1 == s[i1..j1];
    var i2, j2 :| TrimWindow(s, i2, j2) && t2 == s[i2..j2];
    assert i1 < j1 ==> !IsSpace(s[i1]) && !IsSpace(s[j1 - 1]);
    assert i2 < j2 ==> !IsSpace(s[i2]) && !IsSpace(s[j2 - 1]);
  }

  /** A string with no surrounding whitespace is its own trim. */
  lemma StrippedIsOwnTrim(t: string)
    requires t == [] || (!IsSpace(t[0]) && !IsSpace(t[|t| - 1]))
    ensures IsTrimOf(t, t)
  {
    assert TrimWindow(t, 0, |t|) && t == t[0..|t|];
  }

  /** Python's `s.strip().strip() == s.strip()`. */
  lemma StripIdempotent(s: string)
    ensures Strip(Strip(s)) == Strip(s)
  {
    var t := Strip(s);
    var i, j :| TrimWindow(s, i, j) && t == s[i..j];
    StrippedIsOwnTrim(t);
    TrimUnique(t, Strip(t), t);
  }

  /** Reading a file in text mode with universal newlines: every `"\r\n"`
      and every lone `"\r"` becomes `"\n"`. */
  function TranslateNewlines(s: string): (r: string)
    ensures '\r' !in r
    ensures '\r' !in s ==> r == s
    ensures |r| <= |s|
    decreases |s|
  {
    if s == [] then []
    else if s[0] == '\r' then
      if |s| > 1 && s[1] == '\n' then "\n" + TranslateNewlines(s[2..])
      else "\n" + TranslateNewlines(s[1..])
    else [s[0]] + TranslateNewlines(s[1..])
  }

  /** Translation works piece by piece: a `"\r\n"` and a lone `"\r"` each
      become one `"\n"`, and any other character stays as it is. */
  lemma TranslatePieces(c: char)
    ensures TranslateNewlines("\r\n") == "\n"
    ensures TranslateNewlines("\r") == "\n"
    ensures c != '\r' ==> TranslateNewlines([c]) == [c]
  {
    assert "\r\n"[2..] == [];
    assert "\r"[1..] == [];
    assert [c][1..] == [];
  }

  /** Text that does not end in the middle of a `"\r\n"` translates
      independently of what follows it. */
  lemma {:induction false} TranslateAppend(a: string, b: string)
    requires a == [] || a[|a| - 1] != '\r'
    ensures TranslateNewlines(a + b) == TranslateNewlines(a) + TranslateNewlines(b)
    decreases |a|
  {
    if a == [] {
      assert a + b == b;
    } else if a[0] == '\r' {
      assert |a| > 1;
      if a[1] == '\n' {
        assert (a + b)[2..] == a[2..] + b;
        TranslateAppend(a[2..], b);
      } else {
        assert (a + b)[1..] == a[1..] + b;
        TranslateAppend(a[1..], b);
      }
    } else {
      assert (a + b)[1..] == a[1..] + b;
      TranslateAppend(a[1..], b);
    }
  }

  /** A `"\r"` not followed by `"\n"` becomes one `"\n"` on its own. */
  lemma TranslateLoneCr(b: string)
    requires b == [] || b[0] != '\n'
    ensures TranslateNewlines("\r" + b) == "\n" + TranslateNewlines(b)
  {
    assert ("\r" + b)[1..] == b;
  }

  /** Text ending in a lone `"\r"` also translates independently of what
      follows, as long as that does not start with `"\n"`. */
  lemma {:induction false} TranslateAppendCr(a: string, b: string)
    requires a != [] && a[|a| - 1] == '\r'
    requires b == [] || b[0] != '\n'
    ensures TranslateNewlines(a + b) == TranslateNewlines(a) + TranslateNewlines(b)
    decreases |a|
  {
    var p := a[..|a| - 1];
    assert a == p + "\r";
    calc {
      TranslateNewlines(a + b);
      { assert a + b == p + ("\r" + b); }
      TranslateNewlines(p + ("\r" + b));
      { if p != [] && p[|p| - 1] == '\r' { TranslateAppendCr(p, "\r" + b); } else { TranslateAppend(p, "\r" + b); } }
      TranslateNewlines(p) + TranslateNewlines("\r" + b);
      { TranslateLoneCr(b); }
      TranslateNewlines(p) + ("\n" + TranslateNewlines(b));
      (TranslateNewlines(p) + "\n") + TranslateNewlines(b);
      { TranslateLoneCr([]); assert "\r" + [] == "\r";
        if p != [] && p[|p| - 1] == '\r' { TranslateAppendCr(p, "\r"); } else { TranslateAppend(p, "\r"); } }
      TranslateNewlines(a) + TranslateNewlines(b);
    }
  }

  /** `w` occurs in `s` starting at index `i`. */
  ghost predicate OccursAt(s: string, w: string, i: int) {
    0 <= i && i + |w| <= |s| && s[i..i + |w|] == w
  }

  /** Python's `w in s` for strings: `w` is a contiguous substring of `s`
      (the empty string occurs in every string). */
  function Contains(s: string, w: string): (b: bool)
    ensures b <==> exists i :: OccursAt(s, w, i)
    decreases |s|
  {
    if |s| < |w| then
      assert forall i :: !OccursAt(s, w, i);
      false
    else if s[..|w|] == w then
      assert OccursAt(s, w, 0);
      true
    else
      var b := Contains(s[1..], w);
      assert forall i :: 0 <= i ==> (OccursAt(s[1..], w, i) <==> OccursAt(s, w, i + 1));
      assert !OccursAt(s, w, 0);
      assert (exists i :: OccursAt(s, w, i)) ==> exists i :: OccursAt(s[1..], w, i) by {
        if exists i :: OccursAt(s, w, i) {
          var i :| OccursAt(s, w, i);
          assert OccursAt(s[1..], w, i - 1);
        }
      }
      b
  }

  /** Python's `any(w in s for w in words)`. */
  predicate ContainsAny(s: string, words: seq<string>) {
    exists k :: 0 <= k < |words| && Contains(s, words[k])
  }

}

=== FILE: tools.dfy ===
/** The tool implementations of app/tools.py over an abstract file system.
    Every result has exactly the three fields `stdout`, `stderr` and
    `returncode`, which the `ToolResult` datatype fixes by construction. */
module Tools {
  import opened Wrappers
  import opened Text
  import opened Json

  /** Regular files by path. Paths are compared as written: no
      normalisation, no directories. */
  type FileSystem = map<string, string>

  datatype ToolResult = ToolResult(stdout: string, stderr: string, returncode: int)

  /** What a finished `subprocess.run(..., shell=True)` reports, together
      with the file system the command leaves behind. */
  datatype Process = Process(stdout: string, stderr: string, returncode: int, fs: FileSystem)

  /** A tool's result and the file system after it ran. */
  datatype Execution = Execution(result: ToolResult, fs: FileSystem)

  /** A result for a caught exception: its text goes to `stderr`. */
  function ErrorResult(message: string): ToolResult {
    ToolResult("", message, 1)
  }

  // ---------------------------------------------------------------------
  // ShellTool
  // ---------------------------------------------------------------------

  const BlockedCommands: seq<string> := ["rm ", "shutdown", "reboot", "mkfs", "dd "]
  const BlockedResult := ErrorResult("Command blocked for safety.")

  /** `ShellTool.run`: a command holding a blocked fragment is refused
      without running; otherwise it runs and both streams are stripped. */
  function RunShell(exec: (string, FileSystem) -> Process, input: string, fs: FileSystem): (e: Execution)
    ensures ContainsAny(input, BlockedCommands) ==> e == Execution(BlockedResult, fs)
    ensures !ContainsAny(input, BlockedCommands) ==>
      && IsTrimOf(e.result.stdout, exec(input, fs).stdout)
      && IsTrimOf(e.result.stderr, exec(input, fs).stderr)
      && e.result.returncode == exec(input, fs).returncode
      && e.fs == exec(input, fs).fs
  {
    if ContainsAny(input, BlockedCommands) then
      Execution(BlockedResult, fs)
    else
      var p := exec(input, fs);
      Execution(ToolResult(Strip(p.stdout), Strip(p.stderr), p.returncode), p.fs)
  }

  // ---------------------------------------------------------------------
  // ReadFileTool
  // ---------------------------------------------------------------------

  const FileNotFound := ErrorResult("File not found.")

  /** `ReadFileTool.run`: the stripped content of an existing file, read in
      text mode, so line endings arrive as `"\n"`. */
  function RunReadFile(input: string, fs: FileSystem): (r: ToolResult)
    ensures input !in fs ==> r == FileNotFound
    ensures input in fs ==> r.returncode == 0 && r.stderr == "" && IsTrimOf(r.stdout, TranslateNewlines(fs[input]))
    ensures '\r' !in r.stdout
  {
    if input !in fs then FileNotFound
    else
      var text := TranslateNewlines(fs[input]);
      var stripped := Strip(text);
      assert '\r' !in stripped by {
        var i, j :| TrimWindow(text, i, j) && stripped == text[i..j];
        assert forall k :: 0 <= k < |stripped| ==> stripped[k] == text[i + k];
      }
      ToolResult(stripped, "", 0)
  }

  // ---------------------------------------------------------------------
  // WriteFileTool
  // ---------------------------------------------------------------------

  const FileWritten := ToolResult("File written", "", 0)

  /** Texts of the exceptions `WriteFileTool.run` catches. Key errors print
      as the quoted key; the other three stand for Python's longer texts. */
  const DecodeError := "Expecting value"
  const NotSubscriptable := "object is not subscriptable"
  const MissingPath := "'path'"
  const MissingContent := "'content'"
  const PathNotString := "expected str, bytes or os.PathLike object"
  const ContentNotString := "write() argument must be str"

  /** `data[key]` for a decoded document, when it is an object holding `key`. */
  function Field(data: Option<JsonValue>, key: string): (f: Option<JsonValue>)
    ensures f.Some? <==> data.Some? && data.value.JObj? && key in data.value.fields
    ensures f.Some? ==> f.value == data.value.fields[key]
  {
    if data.Some? && data.value.JObj? && key in data.value.fields then Some(data.value.fields[key])
    else None
  }

  /** `fs'` differs from `fs` at most at `path`. */
  ghost predicate OnlyTouches(fs: FileSystem, fs': FileSystem, path: string) {
    forall q :: q != path ==> (q in fs <==> q in fs') && (q in fs ==> fs[q] == fs'[q])
  }

  /** `WriteFileTool.run`: decodes `{path, content}` and overwrites the file.
      `open(path, "w")` empties the file before `f.write(content)` can fail
      on a content that is not a string, so that failure leaves the file
      empty. */
  function RunWriteFile(decode: string -> Option<JsonValue>, input: string, fs: FileSystem): (e: Execution)
    ensures e.result.returncode == 0 <==>
      Field(decode(input), "path").Some? && Field(decode(input), "path").value.JStr? &&
      Field(decode(input), "content").Some? && Field(decode(input), "content").value.JStr?
    ensures e.result.returncode == 0 ==>
      e == Execution(FileWritten, fs[Field(decode(input), "path").value.s := Field(decode(input), "content").value.s])
    ensures e.result.returncode != 0 ==>
      e.result.returncode == 1 && e.result.stdout == "" && e.result.stderr != ""
    ensures Field(decode(input), "path").None? || Field(decode(input), "content").None? ==> e.fs == fs
    ensures Field(decode(input), "path").Some? && Field(decode(input), "path").value.JStr? ==>
      OnlyTouches(fs, e.fs, Field(decode(input), "path").value.s)
    ensures Field(decode(input), "path").Some? && !Field(decode(input), "path").value.JStr? ==> e.fs == fs
  {
    match decode(input)
    case None => Execution(ErrorResult(DecodeError), fs)
    case Some(data) =>
      if !data.JObj? then Execution(ErrorResult(NotSubscriptable), fs)
      else if "path" !in data.fields then Execution(ErrorResult(MissingPath), fs)
      else if "content" !in data.fields then Execution(ErrorResult(MissingContent), fs)
      else match data.fields["path"]
        case JStr(path) =>
          (match data.fields["content"]
           case JStr(content) => Execution(FileWritten, fs[path := content])
           case _ => Execution(ErrorResult(ContentNotString), fs[path := ""]))
        case _ => Execution(ErrorResult(PathNotString), fs)
  }

  /** A file written with `write_file` and read back with `read_file`
      yields the written text, stripped, as long as it holds no carriage
      return (text mode turns those into line feeds). */
  lemma WriteThenRead(decode: string -> Option<JsonValue>, input: string, fs: FileSystem, path: string, content: string)
    requires decode(input) == Some(JObj(map["path" := JStr(path), "content" := JStr(content)]))
    ensures RunReadFile(path, RunWriteFile(decode, input, fs).fs).returncode == 0
    ensures '\r' !in content ==> RunReadFile(path, RunWriteFile(decode, input, fs).fs).stdout == Strip(content)
  {
  }

}

=== FILE: wrappers.dfy ===
/** Optional values, used for lookups that may miss and for oracles that may fail. */
module Wrappers {

  datatype Option<+T> = None | Some(value: T)

}
